=== FILE: README.md ===
# nxiconapi icon catalog generator — Dafny model

`generate_json.py` builds a JSON catalog of Nintendo Switch game icons. It
lists the image files of a GitHub icon repository, one sub-directory at a time.
From each file name it derives a game name, an icon label and a title id. It
groups the icons into one entry per title id. It then merges the entries by
game name into an existing catalog, or into an empty one when no catalog file
exists.

This project models the core of that script as six Dafny modules:

- `Seqs` (`seqs.dfy`): an `Option` type. Python's slice-bound normalisation
  (`PyIndex`, `PySlice`). The first and last position of an element.
- `Text` (`text.dfy`): the Python string operations the parsers rely on.
  These are `str.split` on one character, `str.join`, `str.find` with a start
  index, ASCII `str.lower`, `str.endswith` and `os.path.basename`.
- `FileNames` (`file_names.dfy`): `get_game_name_and_icon_name` and
  `get_title_id`, as pure functions with lemmas about them.
- `CatalogData` (`catalog.dfy`): the icon, game-entry and catalog records,
  the icon total, and the two linear searches (`next(...)` by title id and by
  name). Each search is given both as a function and as a loop.
- `Aggregation` (`aggregation.dfy`): the selection and grouping loop of
  `fetch_icons`, as the method `FetchIcons`.
  - `FetchIcons` is proved equal to the fold `Aggregate`.
  - `Grouped` characterises that fold. It states: one entry per title id,
    entries in order of first appearance, the name from the first image, the
    icons of that id in input order, and the last URL as the normal icon.
- `CatalogMerge` (`merge.dfy`): the loop of `merge_with_existing_json`, as the
  method `MergeWithExisting`.
  - `MergeWithExisting` is proved equal to the fold `MergeInto`.
  - `MergedFrom` characterises that fold. It states that existing games keep
    their place, name and title id. Only the first existing game of a name is
    updated. Appended games are new names in order of first appearance, each
    built from all new entries of that name.

`FetchIcons` makes the two parser calls on the basename of each download URL
through `ParseImage`, which bundles exactly those calls.

Entries are values. The source's in-place mutation of a dictionary found by
linear search is modelled as a sequence update at the index that search
returns.

Where a reading of the naming convention and the code differ, the model
follows the code:

- For `Castle-of-Shikigami-2-icon001-%5B010061E018D3C000%5D.jpg` the game name
  is `"Castle of"`, not `"Castle of Shikigami"`.
  - When more than one game token remains, the code drops the last one
    (`game_name_parts[:-1]`, generate_json.py:15-16).
  - `FileNames.CastleOfShikigamiExample` proves the code's result.
- Images without a title id share the key "absent". They are grouped into a
  single entry, because `None == None` in the search at generate_json.py:65.

## Model

| member | source | states |
|---|---|---|
| Seqs.PyIndex | generate_json.py:11-12 | a Python slice bound: negative bounds count from the end; the result is clipped to `0..n` |
| Text.Split | generate_json.py:8 | `split('-')` always yields at least one piece, and no piece contains the separator |
| Text.SplitCount | generate_json.py:8 | there is one more piece than there are separators |
| Text.JoinSplit | generate_json.py:8-12 | joining the pieces of a split with the separator restores the string |
| Text.SplitJoin | generate_json.py:8-12 | splitting a join of separator-free pieces gives back the pieces |
| Text.Lower | generate_json.py:54 | `lower()` keeps the length, sends each ASCII capital to its small letter (code point plus 32), leaves every other character alone, and leaves no capital behind |
| Text.Find | generate_json.py:30-31 | `find(pat, start)`: the lowest occurrence at or after the start, or -1 exactly when there is none; a negative start (`-1` when `%5B` is missing) first counts from the end and is clipped at 0 (`Text.FindStart`) |
| Text.Basename | generate_json.py:58-59 | the basename holds no `/`, is a suffix of the path, and is preceded by `/` when shorter than the path |
| Text.BasenameAfterSlash | generate_json.py:58-59 | the basename of `dir/name` is `name` |
| FileNames.NameAndIconShape | generate_json.py:6-23 | for `n` tokens: the label is tokens `n-3..n-2` joined by `-`; the game name is `"NULL"` (n ≤ 3), the first token (n = 4), or tokens `0..n-5` joined by spaces (n ≥ 5) |
| FileNames.FewHyphensGiveNullName | generate_json.py:8-21 | a file name with fewer than three `-` gets the sentinel game name `"NULL"` |
| FileNames.NameAndIconOfTokens | generate_json.py:6-23 | a name assembled from hyphen-free game tokens, two label tokens and a last token yields label `a-b`; the game name is the game tokens minus the last, space-joined, or `"NULL"`/the single token |
| FileNames.CastleOfShikigamiExample | generate_json.py:7-23 | the example file name gives `("Castle of", "2-icon001")` |
| FileNames.ThreeTokenExample | generate_json.py:11-21 | three tokens give game name `"NULL"` and label `"Tetris-icon"` |
| FileNames.TitleIdFoundIff | generate_json.py:25-39 | a title id is returned exactly when some `%5B` is followed by some `%5D`; otherwise the result is absent |
| FileNames.TitleIdSplitsName | generate_json.py:30-36 | a returned title id `t` decomposes the name as `p + "%5B" + t + "%5D" + q`, with no `%5B` in `p` and no `%5D` in `t` |
| FileNames.TitleIdOfComposedName | generate_json.py:30-36 | conversely, such a name has title id `t`, whatever `q` holds |
| FileNames.TitleIdExample | generate_json.py:25-36 | `foo-%5B0100ABCDEF123456%5D.jpg` has title id `0100ABCDEF123456` |
| FileNames.NoBracketsExample | generate_json.py:34-39 | a name without `%5B` has no title id |
| CatalogData.FindByTitleId | generate_json.py:65 | the first entry whose title id equals the key (absent matches absent), or none exactly when no entry has it |
| CatalogData.SearchByTitleId | generate_json.py:65 | the linear search returns the first entry with the title id, or none |
| CatalogData.FindByName | generate_json.py:89 | the first entry with the given name, or none exactly when no entry has it |
| CatalogData.SearchByName | generate_json.py:89 | the linear search returns the first entry with the name, or none |
| CatalogData.TotalIconsUpdate | generate_json.py:68-69 | replacing one entry changes the icon total by the change in its icon count |
| Aggregation.ImageExtension | generate_json.py:54 | with a four-character extension, a name is selected exactly when the extension lower-cases to `.jpg` or `.png` |
| Aggregation.UpperJpgIsImage | generate_json.py:54 | a name ending in `.JPG` is selected, whatever precedes it |
| Aggregation.MixedPngIsImage | generate_json.py:54 | a name ending in `.Png` is selected, whatever precedes it |
| Aggregation.GifIsNoImage | generate_json.py:54 | a name ending in `.GIF` is not selected |
| Aggregation.ImageLinksSelect | generate_json.py:54 | the selected URLs are exactly those of items whose name passes the extension test; there are no more of them than items |
| Aggregation.ImageLinksSingle | generate_json.py:54 | an item contributes exactly its download URL when its name is an image name, and nothing otherwise |
| Aggregation.ImageLinksConcat | generate_json.py:54 | the selection keeps listing order: the links of `a + b` are those of `a` followed by those of `b`, so there is one URL per selected item, in listing order |
| Aggregation.ParseImageUsesBasename | generate_json.py:58-59 | both parsers see only the last path segment of the download URL; the URL itself is kept as the icon's URL |
| Aggregation.AggregateGroups | generate_json.py:57-72 | grouping: distinct title ids covering exactly the images' ids; entries in order of first appearance; name from the first image; icons of the id in input order; normal icon is the last URL |
| Aggregation.AggregateTotal | generate_json.py:57-72 | every processed image contributes exactly one icon |
| Aggregation.SameTitleIdShareEntry | generate_json.py:64-69 | two images with one title id make one entry, named after the first, showing the second, with both icons |
| Aggregation.DifferentTitleIdsSeparate | generate_json.py:64-72 | two images with different title ids make two entries, even when their game names agree |
| Aggregation.AddIcon | generate_json.py:61-72 | one iteration of the inner loop performs exactly one grouping step |
| Aggregation.FetchIcons | generate_json.py:42-74 | the loops over listings and images produce the grouping of all selected images, which satisfies the grouping properties; the icon total equals the number of selected images |
| CatalogMerge.LoadedGames | generate_json.py:81-85 | a missing catalog file starts the merge from no games |
| CatalogMerge.MergeIntoMerged | generate_json.py:88-97 | existing games keep position, name and title id; a game after another of its name is untouched; the first of a name gets the icons of all new entries of that name and the last one's normal icon; appended games have fresh, distinct names in order of first appearance, each built from the new entries of its name |
| CatalogMerge.MergeTotal | generate_json.py:88-97 | the merged icon total is the existing total plus the new total |
| CatalogMerge.MergeKnownNames | generate_json.py:91-94 | entries whose names are all present add no game and change no name |
| CatalogMerge.MergeTwice | generate_json.py:88-99 | merging one batch, then an equal, freshly built batch, adds no game the second time, yet the icon total grows by the batch's total again: there is no deduplication |
| CatalogMerge.MergeTwiceIcons | generate_json.py:91-94 | after merging one batch and then an equal, freshly built batch, the first existing game of a name holds the new icons of that name twice |
| CatalogMerge.MergeTwiceAppended | generate_json.py:88-99 | a game the first merge appended holds its name's new icons once, and twice after a second merge of an equal, freshly built batch; into an empty catalog this is every game |
| CatalogMerge.SameNameDifferentTitleIds | generate_json.py:88-97 | two images with one game name and different title ids stay two entries after aggregation, and become one entry holding both icons once merged into an empty catalog |
| CatalogMerge.MergeWithExisting | generate_json.py:79-99 | the merge loop computes the merge of the new entries into the loaded games; it satisfies the merge properties and the icon-total sum |

## Left out

- Network: the GitHub contents API request and its JSON decoding
  (generate_json.py:49-51). The listings are the input `listings` of
  `FetchIcons`, one sequence of (name, download URL) items per sub-directory,
  in the order the API returned them.
- File I/O and JSON: loading the existing catalog (generate_json.py:81-85)
  and writing `output.json` (generate_json.py:117-119). `MergeWithExisting`
  takes the file's decoded contents as `Option<Catalog>`, with `None` for a
  missing file.
- Malformed input: a selected listing item without `download_url`, or a
  listing item without `name`, raises in the source and is not modelled; an
  item whose name fails the image test is skipped before `download_url` is
  read, which the model matches only for items that carry both keys. A
  decoded file that is not a catalog is not modelled either.
- Existing catalog entries lacking `title_id` or `normalIcon`, and entries
  never matched that lack `icons`, pass through the source's merge unchanged
  (it reads only `name`, and `icons` of a matched entry,
  generate_json.py:89-94). `GameEntry` always holds all four keys, so such
  entries cannot be represented.
- Extra JSON keys are not carried: `GameEntry` holds only the four keys the
  code reads or writes, and `Catalog` holds only `games`, while the source
  returns the whole loaded dictionary (generate_json.py:99), so other
  top-level keys of the existing file survive there.
- Aliasing: a new entry appended by the merge is the same dictionary object as
  in the caller's `new_icons_data`. Later same-name entries therefore also
  mutate the caller's batch. The model has value semantics and describes only
  the returned catalog.
- `main` (generate_json.py:101-122):
  - its unused pre-load of `icons.json` is left out;
  - its hard-coded base URL, sub-directory list and file paths are left out;
  - the unused `subdirectory_url` (generate_json.py:46) is left out;
  - the unused BeautifulSoup import is left out.
- CatalogMerge.MergeTwice, CatalogMerge.MergeTwiceIcons and
  CatalogMerge.MergeTwiceAppended: the second batch is a separate value equal
  to the first. Passing the very same Python list again gives a different
  result, because the first merge appended that list's own entries and
  extended them in place (generate_json.py:94, 97); the model has no aliasing.
- Text.Lower: only ASCII capitals are folded. Python's full Unicode lower-casing
  is not modelled. It cannot change whether a name ends in `.jpg` or `.png`
  unless a non-ASCII character lower-cases into one of those letters.
- Text.Basename: models the POSIX `os.path.basename`, the text after the last
  `/`.
- FileNames.CastleOfShikigamiExample and FileNames.ThreeTokenExample: the file
  name is given as the `-` join of its tokens, and FileNames.TitleIdExample
  as a concatenation of its parts. In each case the expression equals the literal name.

=== FILE: aggregation.dfy ===
/** The aggregation pass of `fetch_icons`: every image file of every listed
    subdirectory is parsed into an icon record, and the records are grouped
    into game entries keyed by title id, in one list that spans all the
    subdirectories. The listings themselves come from the network and are an
    input here. */
module Aggregation {
  import opened Seqs
  import opened Text
  import opened FileNames
  import opened CatalogData

  /** The provenance tag of every icon of this source. */
  const AUTHOR: string := "sodasoba"

  /** One item of a directory listing: its file name and its download URL. */
  datatype FileInfo = FileInfo(name: string, downloadUrl: string)

  /** One parsed image: what the parser makes of its URL's basename, and the
      URL itself. */
  datatype Image = Image(gameName: string, iconLabel: string, titleId: Option<string>, url: string)

  /* ---------------------------------------------------------- selection */

  /** A listing item is an image when its name, lower-cased, ends in `.jpg`
      or `.png`. */
  predicate IsImageName(name: string)
  {
    EndsWith(Lower(name), ".jpg") || EndsWith(Lower(name), ".png")
  }

  /** The extension test ignores case: a name ending in a four-character
      extension is an image exactly when the extension lower-cases to `.jpg`
      or `.png`. */
  lemma ImageExtension(stem: string, ext: string)
    requires |ext| == 4
    ensures IsImageName(stem + ext) <==> Lower(ext) == ".jpg" || Lower(ext) == ".png"
  {
    var low := Lower(stem + ext);
    assert low == Lower(stem) + Lower(ext);
    assert low[|low| - 4..] == Lower(ext);
  }

  /** An upper-case `.JPG` is an image. */
  lemma UpperJpgIsImage(stem: string)
    ensures IsImageName(stem + ".JPG")
  {
    ImageExtension(stem, ".JPG");
    var low := Lower(".JPG");
    assert low[0] == '.' && low[1] == 'j' && low[2] == 'p' && low[3] == 'g';
    assert low == ".jpg";
  }

  /** A mixed-case `.Png` is an image. */
  lemma MixedPngIsImage(stem: string)
    ensures IsImageName(stem + ".Png")
  {
    ImageExtension(stem, ".Png");
    var low := Lower(".Png");
    assert low[0] == '.' && low[1] == 'p' && low[2] == 'n' && low[3] == 'g';
    assert low == ".png";
  }

  /** A `.GIF` is not an image. */
  lemma GifIsNoImage(stem: string)
    ensures !IsImageName(stem + ".GIF")
  {
    ImageExtension(stem, ".GIF");
    assert Lower(".GIF")[1] == 'g';
  }

  /** The download URLs of the image items of one listing, in listing order. */
  function ImageLinks(files: seq<FileInfo>): seq<string>
  {
    if files == [] then []
    else
      var last := files[|files| - 1];
      ImageLinks(files[..|files| - 1]) + (if IsImageName(last.name) then [last.downloadUrl] else [])
  }

  /** Exactly the URLs of image items are selected, and no more links than
      items. */
  lemma {:induction false} ImageLinksSelect(files: seq<FileInfo>)
    ensures |ImageLinks(files)| <= |files|
    ensures forall u :: u in ImageLinks(files) <==>
              exists f :: f in files && IsImageName(f.name) && f.downloadUrl == u
  {
    if files != [] {
      var n := |files| - 1;
      ImageLinksSelect(files[..n]);
      assert files == files[..n] + [files[n]];
      forall u | u in ImageLinks(files)
        ensures exists f :: f in files && IsImageName(f.name) && f.downloadUrl == u
      {
        if u !in ImageLinks(files[..n]) {
          assert files[n] in files;
        }
      }
    }
  }

  /** One item gives its URL when its name is an image name, and nothing
      otherwise. */
  lemma ImageLinksSingle(f: FileInfo)
    ensures ImageLinks([f]) == if IsImageName(f.name) then [f.downloadUrl] else []
  {
    assert [f][..0] == [];
  }

  /** Selection keeps listing order: the links of a split listing are the
      links of its first part followed by those of its second. */
  lemma {:induction false} ImageLinksConcat(a: seq<FileInfo>, b: seq<FileInfo>)
    ensures ImageLinks(a + b) == ImageLinks(a) + ImageLinks(b)
  {
    if b == [] {
      assert a + b == a;
    } else {
      var n := |b| - 1;
      ImageLinksConcat(a, b[..n]);
      assert (a + b)[..|a + b| - 1] == a + b[..n];
      assert (a + b)[|a + b| - 1] == b[n];
    }
  }

  /** The image URLs of all listings, subdirectory after subdirectory. */
  function AllImageLinks(listings: seq<seq<FileInfo>>): seq<string>
  {
    if listings == [] then []
    else AllImageLinks(listings[..|listings| - 1]) + ImageLinks(listings[|listings| - 1])
  }

  /* ------------------------------------------------------------ parsing */

  /** The parser runs on the basename of the download URL, not on the
      listing name. */
  function ParseImage(link: string): (img: Image)
    ensures img.url == link
  {
    var base := Basename(link);
    var names := GameNameAndIconName(base);
    Image(names.0, names.1, GetTitleId(base), link)
  }

  /** For a download URL `dir/name`, both parsers see `name` alone, and the
      URL is kept whole. */
  lemma ParseImageUsesBasename(dir: string, name: string)
    requires '/' !in name
    ensures ParseImage(dir + "/" + name)
         == Image(GameNameAndIconName(name).0, GameNameAndIconName(name).1, GetTitleId(name), dir + "/" + name)
  {
    BasenameAfterSlash(dir, name);
  }

  function ParseAll(links: seq<string>): (r: seq<Image>)
    ensures |r| == |links|
  {
    if links == [] then []
    else ParseAll(links[..|links| - 1]) + [ParseImage(links[|links| - 1])]
  }

  function IconOf(img: Image): Icon
  {
    Icon(img.iconLabel, img.url, AUTHOR)
  }

  function NewEntry(img: Image): GameEntry
  {
    GameEntry(img.titleId, img.gameName, img.url, [IconOf(img)])
  }

  /* ------------------------------------------------------- specification */

  /** One step of the loop: the first entry with the image's title id gets the
      image as its normal icon and one more icon; without one, a new entry is
      appended. */
  function AddImage(entries: seq<GameEntry>, img: Image): seq<GameEntry>
  {
    match FindByTitleId(entries, img.titleId)
    case Some(j) =>
      entries[j := entries[j].(normalIcon := img.url, icons := entries[j].icons + [IconOf(img)])]
    case None =>
      entries + [NewEntry(img)]
  }

  /** The entries built from `images`, in processing order. */
  function Aggregate(images: seq<Image>): seq<GameEntry>
  {
    if images == [] then []
    else AddImage(Aggregate(images[..|images| - 1]), images[|images| - 1])
  }

  lemma AggregateAppend(images: seq<Image>, img: Image)
    ensures Aggregate(images + [img]) == AddImage(Aggregate(images), img)
  {
    assert (images + [img])[..|images|] == images;
  }

  function TitleIds(images: seq<Image>): (r: seq<Option<string>>)
    ensures |r| == |images|
    ensures forall k :: 0 <= k < |images| ==> r[k] == images[k].titleId
  {
    seq(|images|, k requires 0 <= k < |images| => images[k].titleId)
  }

  function EntryTitleIds(entries: seq<GameEntry>): (r: seq<Option<string>>)
    ensures |r| == |entries|
    ensures forall k :: 0 <= k < |entries| ==> r[k] == entries[k].titleId
  {
    seq(|entries|, k requires 0 <= k < |entries| => entries[k].titleId)
  }

  /** The icon records of the images with title id `id`, in input order. */
  function IconsWithId(images: seq<Image>, id: Option<string>): seq<Icon>
  {
    if images == [] then []
    else
      var last := images[|images| - 1];
      IconsWithId(images[..|images| - 1], id) + (if last.titleId == id then [IconOf(last)] else [])
  }

  lemma {:induction false} IconsWithAbsentId(images: seq<Image>, id: Option<string>)
    requires id !in TitleIds(images)
    ensures IconsWithId(images, id) == []
  {
    if images != [] {
      var n := |images| - 1;
      assert TitleIds(images[..n]) == TitleIds(images)[..n];
      IconsWithAbsentId(images[..n], id);
    }
  }

  /** Every title id has at most one entry. */
  ghost predicate KeysDistinct(r: seq<GameEntry>)
  {
    forall i, j :: 0 <= i < j < |r| ==> r[i].titleId != r[j].titleId
  }

  /** The entries' title ids are exactly those of the images. */
  ghost predicate KeysCover(images: seq<Image>, r: seq<GameEntry>)
  {
    && (forall k :: 0 <= k < |images| ==> images[k].titleId in EntryTitleIds(r))
    && (forall i :: 0 <= i < |r| ==> r[i].titleId in TitleIds(images))
  }

  /** Entries are ordered by the first image carrying their title id. */
  ghost predicate KeysOrdered(images: seq<Image>, r: seq<GameEntry>)
    requires KeysCover(images, r)
  {
    var ids := TitleIds(images);
    forall i, j :: 0 <= i < j < |r| ==> FirstIndex(ids, r[i].titleId) < FirstIndex(ids, r[j].titleId)
  }

  /** An entry is named after the first image carrying its title id. */
  ghost predicate NamedByFirst(images: seq<Image>, r: seq<GameEntry>)
    requires KeysCover(images, r)
  {
    var ids := TitleIds(images);
    forall i :: 0 <= i < |r| ==> r[i].name == images[FirstIndex(ids, r[i].titleId)].gameName
  }

  /** An entry holds the icons of the images carrying its title id, in order. */
  ghost predicate IconsGrouped(images: seq<Image>, r: seq<GameEntry>)
  {
    forall i :: 0 <= i < |r| ==> r[i].icons == IconsWithId(images, r[i].titleId)
  }

  /** An entry's normal icon is the URL of the last image carrying its title
      id. */
  ghost predicate NormalIconIsLast(images: seq<Image>, r: seq<GameEntry>)
    requires KeysCover(images, r)
  {
    var ids := TitleIds(images);
    forall i :: 0 <= i < |r| ==> r[i].normalIcon == images[LastIndex(ids, r[i].titleId)].url
  }

  /** What grouping by title id means: one entry per distinct title id,
      ordered by the first image carrying it, named after that first image,
      holding exactly the icons of the images with that id in input order,
      with the last such image as its normal icon. */
  ghost predicate Grouped(images: seq<Image>, r: seq<GameEntry>)
  {
    && KeysDistinct(r)
    && KeysCover(images, r)
    && KeysOrdered(images, r)
    && NamedByFirst(images, r)
    && IconsGrouped(images, r)
    && NormalIconIsLast(images, r)
  }

  /** An image whose title id has no entry yet carries a title id no earlier
      image carried. */
  lemma UnmatchedIdIsNew(images: seq<Image>, r: seq<GameEntry>, img: Image)
    requires KeysCover(images, r) && FindByTitleId(r, img.titleId).None?
    ensures img.titleId !in TitleIds(images)
  {
    forall k | 0 <= k < |images| ensures TitleIds(images)[k] != img.titleId {
      assert images[k].titleId in EntryTitleIds(r);
    }
  }

  lemma AddImageKeys(images: seq<Image>, r: seq<GameEntry>, img: Image)
    requires KeysDistinct(r) && KeysCover(images, r)
    ensures KeysDistinct(AddImage(r, img)) && KeysCover(images + [img], AddImage(r, img))
  {
    var images', r' := images + [img], AddImage(r, img);
    assert TitleIds(images') == TitleIds(images) + [img.titleId];
    match FindByTitleId(r, img.titleId)
    case Some(j) =>
      assert EntryTitleIds(r') == EntryTitleIds(r);
    case None =>
      assert EntryTitleIds(r') == EntryTitleIds(r) + [img.titleId];
  }

  /** The step that updates entry `j`, for the order and names of the
      entries. */
  lemma OrderStepUpdate(images: seq<Image>, r: seq<GameEntry>, img: Image, j: nat, r': seq<GameEntry>)
    requires KeysCover(images, r) && KeysOrdered(images, r) && NamedByFirst(images, r)
    requires j < |r| && r[j].titleId == img.titleId
    requires r' == r[j := r[j].(normalIcon := img.url, icons := r[j].icons + [IconOf(img)])]
    ensures KeysCover(images + [img], r')
    ensures KeysOrdered(images + [img], r') && NamedByFirst(images + [img], r')
  {
    var images' := images + [img];
    var ids, ids' := TitleIds(images), TitleIds(images');
    assert ids' == ids + [img.titleId];
    assert EntryTitleIds(r') == EntryTitleIds(r);
    assert img.titleId in EntryTitleIds(r) by { assert EntryTitleIds(r)[j] == img.titleId; }
    forall i | 0 <= i < |r'|
      ensures r'[i].titleId == r[i].titleId && r'[i].name == r[i].name
      ensures FirstIndex(ids', r'[i].titleId) == FirstIndex(ids, r[i].titleId)
      ensures images'[FirstIndex(ids, r[i].titleId)] == images[FirstIndex(ids, r[i].titleId)]
    {
      FirstIndexAppend(ids, img.titleId, r[i].titleId);
    }
  }

  /** The step that appends a new entry, for the order of the entries. */
  lemma OrderStepAppend(images: seq<Image>, r: seq<GameEntry>, img: Image)
    requires KeysCover(images, r) && KeysOrdered(images, r)
    requires img.titleId !in TitleIds(images)
    ensures KeysCover(images + [img], r + [NewEntry(img)])
    ensures KeysOrdered(images + [img], r + [NewEntry(img)])
  {
    var images', r' := images + [img], r + [NewEntry(img)];
    var ids, ids' := TitleIds(images), TitleIds(images');
    assert ids' == ids + [img.titleId];
    assert EntryTitleIds(r') == EntryTitleIds(r) + [img.titleId];
    FirstIndexAppendNew(ids, img.titleId);
    forall i | 0 <= i < |r|
      ensures r'[i] == r[i]
      ensures FirstIndex(ids', r'[i].titleId) == FirstIndex(ids, r[i].titleId) < |images|
    {
      FirstIndexAppend(ids, img.titleId, r[i].titleId);
    }
  }

  /** The step that appends a new entry, for the names of the entries. */
  lemma NameStepAppend(images: seq<Image>, r: seq<GameEntry>, img: Image)
    requires KeysCover(images, r) && NamedByFirst(images, r)
    requires img.titleId !in TitleIds(images)
    requires KeysCover(images + [img], r + [NewEntry(img)])
    ensures NamedByFirst(images + [img], r + [NewEntry(img)])
  {
    var images', r' := images + [img], r + [NewEntry(img)];
    var ids, ids' := TitleIds(images), TitleIds(images');
    assert ids' == ids + [img.titleId];
    FirstIndexAppendNew(ids, img.titleId);
    forall i | 0 <= i < |r|
      ensures r'[i] == r[i]
      ensures FirstIndex(ids', r'[i].titleId) == FirstIndex(ids, r[i].titleId)
      ensures images'[FirstIndex(ids, r[i].titleId)] == images[FirstIndex(ids, r[i].titleId)]
    {
      FirstIndexAppend(ids, img.titleId, r[i].titleId);
    }
    assert images'[|images|] == img;
  }

  lemma AddImageOrder(images: seq<Image>, r: seq<GameEntry>, img: Image)
    requires KeysCover(images, r) && KeysOrdered(images, r) && NamedByFirst(images, r)
    ensures KeysCover(images + [img], AddImage(r, img))
    ensures KeysOrdered(images + [img], AddImage(r, img))
    ensures NamedByFirst(images + [img], AddImage(r, img))
  {
    match FindByTitleId(r, img.titleId)
    case Some(j) =>
      var r' := r[j := r[j].(normalIcon := img.url, icons := r[j].icons + [IconOf(img)])];
      assert AddImage(r, img) == r';
      OrderStepUpdate(images, r, img, j, r');
    case None =>
      assert AddImage(r, img) == r + [NewEntry(img)];
      UnmatchedIdIsNew(images, r, img);
      OrderStepAppend(images, r, img);
      NameStepAppend(images, r, img);
  }

  /** The step that updates entry `j`, for the normal icons. */
  lemma NormalStepUpdate(images: seq<Image>, r: seq<GameEntry>, img: Image, j: nat, r': seq<GameEntry>)
    requires KeysDistinct(r) && KeysCover(images, r) && NormalIconIsLast(images, r)
    requires KeysCover(images + [img], r')
    requires j < |r| && r[j].titleId == img.titleId
    requires r' == r[j := r[j].(normalIcon := img.url, icons := r[j].icons + [IconOf(img)])]
    ensures NormalIconIsLast(images + [img], r')
  {
    var images' := images + [img];
    var ids, ids' := TitleIds(images), TitleIds(images');
    assert ids' == ids + [img.titleId];
    LastIndexAppend(ids, img.titleId, img.titleId);
    forall i | 0 <= i < |r'|
      ensures r'[i].normalIcon == images'[LastIndex(ids', r'[i].titleId)].url
    {
      if i == j {
        assert images'[|images|] == img;
      } else {
        var id := r[i].titleId;
        assert r'[i] == r[i] && id != img.titleId;
        LastIndexAppend(ids, img.titleId, id);
        assert images'[LastIndex(ids, id)] == images[LastIndex(ids, id)];
      }
    }
  }

  /** The step that appends a new entry, for the normal icons. */
  lemma NormalStepAppend(images: seq<Image>, r: seq<GameEntry>, img: Image)
    requires KeysCover(images, r) && NormalIconIsLast(images, r)
    requires img.titleId !in TitleIds(images)
    requires KeysCover(images + [img], r + [NewEntry(img)])
    ensures NormalIconIsLast(images + [img], r + [NewEntry(img)])
  {
    var images', r' := images + [img], r + [NewEntry(img)];
    var ids, ids' := TitleIds(images), TitleIds(images');
    assert ids' == ids + [img.titleId];
    LastIndexAppend(ids, img.titleId, img.titleId);
    forall i | 0 <= i < |r'|
      ensures r'[i].normalIcon == images'[LastIndex(ids', r'[i].titleId)].url
    {
      if i == |r| {
        assert images'[|images|] == img;
      } else {
        var id := r[i].titleId;
        assert r'[i] == r[i] && id in ids;
        LastIndexAppend(ids, img.titleId, id);
        assert images'[LastIndex(ids, id)] == images[LastIndex(ids, id)];
      }
    }
  }

  lemma AddImageNormalIcon(images: seq<Image>, r: seq<GameEntry>, img: Image)
    requires KeysDistinct(r) && KeysCover(images, r) && NormalIconIsLast(images, r)
    ensures KeysCover(images + [img], AddImage(r, img))
    ensures NormalIconIsLast(images + [img], AddImage(r, img))
  {
    AddImageKeys(images, r, img);
    match FindByTitleId(r, img.titleId)
    case Some(j) =>
      var r' := r[j := r[j].(normalIcon := img.url, icons := r[j].icons + [IconOf(img)])];
      assert AddImage(r, img) == r';
      NormalStepUpdate(images, r, img, j, r');
    case None =>
      assert AddImage(r, img) == r + [NewEntry(img)];
      UnmatchedIdIsNew(images, r, img);
      NormalStepAppend(images, r, img);
  }

  lemma AddImageIcons(images: seq<Image>, r: seq<GameEntry>, img: Image)
    requires KeysDistinct(r) && KeysCover(images, r) && IconsGrouped(images, r)
    ensures IconsGrouped(images + [img], AddImage(r, img))
  {
    var images', r' := images + [img], AddImage(r, img);
    assert images'[..|images|] == images;
    forall id ensures IconsWithId(images', id)
                   == IconsWithId(images, id) + (if img.titleId == id then [IconOf(img)] else [])
    {
    }
    match FindByTitleId(r, img.titleId)
    case Some(j) =>
    case None =>
      UnmatchedIdIsNew(images, r, img);
      IconsWithAbsentId(images, img.titleId);
      assert r' == r + [NewEntry(img)];
  }

  lemma AddImageGroups(images: seq<Image>, r: seq<GameEntry>, img: Image, images': seq<Image>, r': seq<GameEntry>)
    requires Grouped(images, r)
    requires images' == images + [img] && r' == AddImage(r, img)
    ensures Grouped(images', r')
  {
    AddImageKeys(images, r, img);
    AddImageOrder(images, r, img);
    AddImageNormalIcon(images, r, img);
    AddImageIcons(images, r, img);
  }

  /** Aggregation groups the images by title id (see Grouped). */
  lemma {:induction false} AggregateGroups(images: seq<Image>)
    ensures Grouped(images, Aggregate(images))
  {
    if images != [] {
      var prev, last := images[..|images| - 1], images[|images| - 1];
      AggregateGroups(prev);
      assert prev + [last] == images;
      AddImageGroups(prev, Aggregate(prev), last, images, Aggregate(images));
    }
  }

  /** Every processed image contributes exactly one icon. */
  lemma {:induction false} AggregateTotal(images: seq<Image>)
    ensures TotalIcons(Aggregate(images)) == |images|
  {
    if images != [] {
      var n := |images| - 1;
      var r := Aggregate(images[..n]);
      AggregateTotal(images[..n]);
      match FindByTitleId(r, images[n].titleId)
      case Some(j) =>
        TotalIconsUpdate(r, j, r[j].(normalIcon := images[n].url, icons := r[j].icons + [IconOf(images[n])]));
      case None =>
        TotalIconsAppend(r, NewEntry(images[n]));
    }
  }

  /** Two images with the same title id make one entry with both icons,
      named after the first and showing the second. */
  lemma SameTitleIdShareEntry(a: Image, b: Image)
    requires a.titleId == b.titleId
    ensures Aggregate([a, b]) == [GameEntry(a.titleId, a.gameName, b.url, [IconOf(a), IconOf(b)])]
  {
    AggregateAppend([], a);
    AggregateAppend([a], b);
    assert [] + [a] == [a] && [a] + [b] == [a, b];
    assert FindByTitleId([NewEntry(a)], b.titleId) == Some(0);
    assert [IconOf(a)] + [IconOf(b)] == [IconOf(a), IconOf(b)];
  }

  /** Two images with different title ids make two entries, even when their
      game names agree. */
  lemma DifferentTitleIdsSeparate(a: Image, b: Image)
    requires a.titleId != b.titleId
    ensures Aggregate([a, b]) == [NewEntry(a), NewEntry(b)]
  {
    AggregateAppend([], a);
    AggregateAppend([a], b);
    assert [] + [a] == [a] && [a] + [b] == [a, b];
  }

  /* ------------------------------------------------------------ the loop */

  /** One more link extends the processed prefix by one aggregation step. */
  lemma AggregateLinksAppend(links: seq<string>, link: string)
    ensures Aggregate(ParseAll(links + [link])) == AddImage(Aggregate(ParseAll(links)), ParseImage(link))
  {
    assert (links + [link])[..|links|] == links;
    AggregateAppend(ParseAll(links), ParseImage(link));
  }

  lemma AllImageLinksAppend(listings: seq<seq<FileInfo>>, s: nat)
    requires s < |listings|
    ensures AllImageLinks(listings[..s + 1]) == AllImageLinks(listings[..s]) + ImageLinks(listings[s])
  {
    assert listings[..s + 1][..s] == listings[..s];
  }

  lemma PrefixSnoc(done: seq<string>, xs: seq<string>, k: nat)
    requires k < |xs|
    ensures done + xs[..k + 1] == done + xs[..k] + [xs[k]]
  {
    assert xs[..k + 1] == xs[..k] + [xs[k]];
  }

  /** The body of the inner loop: the first entry with the image's title id
      is found by a linear search and updated in place, or a new entry is
      appended. */
  method AddIcon(iconsData: seq<GameEntry>, img: Image) returns (updated: seq<GameEntry>)
    ensures updated == AddImage(iconsData, img)
  {
    var iconData := IconOf(img);
    var existing := SearchByTitleId(iconsData, img.titleId);
    match existing {
      case Some(j) =>
        updated := iconsData[j := iconsData[j].(normalIcon := img.url,
                                                icons := iconsData[j].icons + [iconData])];
      case None =>
        updated := iconsData + [NewEntry(img)];
    }
  }

  /** `fetch_icons` without the network: for each subdirectory's listing, in
      order, the image items are parsed and grouped into one list of game
      entries shared by all subdirectories. */
  method FetchIcons(listings: seq<seq<FileInfo>>) returns (iconsData: seq<GameEntry>)
    ensures iconsData == Aggregate(ParseAll(AllImageLinks(listings)))
    ensures Grouped(ParseAll(AllImageLinks(listings)), iconsData)
    ensures TotalIcons(iconsData) == |AllImageLinks(listings)|
  {
    iconsData := [];
    ghost var done: seq<string> := [];
    var s := 0;
    while s < |listings|
      invariant 0 <= s <= |listings|
      invariant done == AllImageLinks(listings[..s])
      invariant iconsData == Aggregate(ParseAll(done))
    {
      var imageFiles := ImageLinks(listings[s]);
      var k := 0;
      ghost var prefix := done;
      assert done + imageFiles[..k] == done;
      while k < |imageFiles|
        invariant 0 <= k <= |imageFiles|
        invariant prefix == done + imageFiles[..k]
        invariant iconsData == Aggregate(ParseAll(prefix))
      {
        var imageLink := imageFiles[k];
        iconsData := AddIcon(iconsData, ParseImage(imageLink));
        AggregateLinksAppend(prefix, imageLink);
        PrefixSnoc(done, imageFiles, k);
        prefix := prefix + [imageLink];
        k := k + 1;
      }
      assert imageFiles[..k] == imageFiles;
      AllImageLinksAppend(listings, s);
      done := done + imageFiles;
      s := s + 1;
    }
    assert listings[..s] == listings;
    AggregateGroups(ParseAll(done));
    AggregateTotal(ParseAll(done));
  }
}

=== FILE: catalog.dfy ===
/** The records of the icon catalog: an icon, a game entry grouping icons of
    one title, and the catalog of games, with the two searches the source
    runs over a list of entries (by title id while fetching, by name while
    merging). */
module CatalogData {
  import opened Seqs

  /** `{"name", "url", "author"}`: one icon image. */
  datatype Icon = Icon(name: string, url: string, author: string)

  /** `{"title_id", "name", "normalIcon", "icons"}`: one game; an absent
      title id is JSON `null`. */
  datatype GameEntry = GameEntry(
    titleId: Option<string>,
    name: string,
    normalIcon: string,
    icons: seq<Icon>)

  /** `{"games": [...]}`. */
  datatype Catalog = Catalog(games: seq<GameEntry>)

  /** The number of icons over all entries. */
  function TotalIcons(games: seq<GameEntry>): nat
  {
    if games == [] then 0
    else TotalIcons(games[..|games| - 1]) + |games[|games| - 1].icons|
  }

  /** Replacing one entry changes the total by the change in its icon count. */
  lemma {:induction false} TotalIconsUpdate(games: seq<GameEntry>, j: nat, e: GameEntry)
    requires j < |games|
    ensures TotalIcons(games[j := e]) + |games[j].icons| == TotalIcons(games) + |e.icons|
  {
    var n := |games| - 1;
    var g := games[j := e];
    if j < n {
      assert g[..n] == games[..n][j := e];
      TotalIconsUpdate(games[..n], j, e);
    } else {
      assert g[..n] == games[..n];
    }
  }

  /** Appending an entry adds its icons to the total. */
  lemma TotalIconsAppend(games: seq<GameEntry>, e: GameEntry)
    ensures TotalIcons(games + [e]) == TotalIcons(games) + |e.icons|
  {
    assert (games + [e])[..|games|] == games;
  }

  /** The first entry whose title id equals `id`, or none; an absent title
      id is a key like any other and matches an entry without one. */
  function FindByTitleId(games: seq<GameEntry>, id: Option<string>): (r: Option<nat>)
    ensures r.Some? ==> r.value < |games| && games[r.value].titleId == id
    ensures r.Some? ==> forall k :: 0 <= k < r.value ==> games[k].titleId != id
    ensures r.None? <==> forall k :: 0 <= k < |games| ==> games[k].titleId != id
  {
    if games == [] then None
    else if games[0].titleId == id then Some(0)
    else match FindByTitleId(games[1..], id)
      case None => None
      case Some(k) => Some(k + 1)
  }

  /** The first entry whose name equals `name`, or none. */
  function FindByName(games: seq<GameEntry>, name: string): (r: Option<nat>)
    ensures r.Some? ==> r.value < |games| && games[r.value].name == name
    ensures r.Some? ==> forall k :: 0 <= k < r.value ==> games[k].name != name
    ensures r.None? <==> forall k :: 0 <= k < |games| ==> games[k].name != name
  {
    if games == [] then None
    else if games[0].name == name then Some(0)
    else match FindByName(games[1..], name)
      case None => None
      case Some(k) => Some(k + 1)
  }

  /** The linear search of the aggregation loop. */
  method SearchByTitleId(games: seq<GameEntry>, id: Option<string>) returns (found: Option<nat>)
    ensures found == FindByTitleId(games, id)
  {
    var i := 0;
    while i < |games| && games[i].titleId != id
      invariant 0 <= i <= |games|
      invariant forall k :: 0 <= k < i ==> games[k].titleId != id
    {
      i := i + 1;
    }
    found := if i < |games| then Some(i) else None;
  }

  /** The linear search of the merge loop. */
  method SearchByName(games: seq<GameEntry>, name: string) returns (found: Option<nat>)
    ensures found == FindByName(games, name)
  {
    var i := 0;
    while i < |games| && games[i].name != name
      invariant 0 <= i <= |games|
      invariant forall k :: 0 <= k < i ==> games[k].name != name
    {
      i := i + 1;
    }
    found := if i < |games| then Some(i) else None;
  }
}

=== FILE: file_names.dfy ===
/** The filename parser of generate_json.py: an icon image's file name such as
    `Castle-of-Shikigami-2-icon001-%5B010061E018D3C000%5D.jpg` gives a game
    name, an icon label and a percent-encoded, bracketed title id. Both
    parsers are total: malformed names degrade to the `"NULL"` game name, a
    short or empty icon label, and an absent title id. */
module FileNames {
  import opened Seqs
  import opened Text

  /** The sentinel game name of a file name with too few `-` tokens. */
  const NULL_NAME: string := "NULL"

  /** The percent-encoded `[` and `]` around the title id. */
  const START_MARKER: string := "%5B"
  const END_MARKER: string := "%5D"

  /* ------------------------------------------------ game name and icon label */

  /** `get_game_name_and_icon_name`: the pair (game name, icon label). The
      label joins, with `-`, the (at most two) tokens before the last token;
      the game name is built from the tokens before the last three, dropping
      the last of them when there are several. */
  function GameNameAndIconName(fullIconName: string): (string, string)
  {
    var parts := Split(fullIconName, '-');
    var gameNameParts := PySlice(parts, 0, -3);
    var iconName := Join("-", PySlice(parts, -3, -1));
    var gameName :=
      if |gameNameParts| > 1 then Join(" ", PySlice(gameNameParts, 0, -1))
      else if |gameNameParts| == 1 then gameNameParts[0]
      else NULL_NAME;
    (gameName, iconName)
  }

  /** The outcome of the parser for every number of `-` tokens: the label is
      the tokens `n-3 .. n-2` (fewer when there are fewer than three tokens),
      and the game name is `"NULL"`, the first token, or the tokens `0 .. n-5`
      joined by spaces; the token just before the label is never part of
      either. */
  lemma NameAndIconShape(s: string)
    ensures var parts := Split(s, '-');
            var n := |parts|;
            var r := GameNameAndIconName(s);
            && r.1 == Join("-", parts[(if n >= 3 then n - 3 else 0)..n - 1])
            && (n <= 3 ==> r.0 == NULL_NAME)
            && (n == 4 ==> r.0 == parts[0])
            && (n >= 5 ==> r.0 == Join(" ", parts[..n - 4]))
  {
    var parts := Split(s, '-');
    var n := |parts|;
    if n >= 5 {
      assert PySlice(PySlice(parts, 0, -3), 0, -1) == parts[..n - 4];
    }
  }

  /** A file name with fewer than three `-` has the sentinel game name. */
  lemma FewHyphensGiveNullName(s: string)
    requires multiset(s)['-'] < 3
    ensures GameNameAndIconName(s).0 == NULL_NAME
  {
    SplitCount(s, '-');
    NameAndIconShape(s);
  }

  /** The parser undoes the naming convention: a file name assembled from
      hyphen-free game tokens, two label tokens and a final token yields the
      label `a-b` and the game tokens minus the last one, joined by spaces. */
  lemma {:induction false} NameAndIconOfTokens(game: seq<string>, a: string, b: string, last: string)
    requires forall t :: t in game ==> '-' !in t
    requires '-' !in a && '-' !in b && '-' !in last
    ensures var r := GameNameAndIconName(Join("-", game + [a, b, last]));
            && r.1 == a + "-" + b
            && r.0 == (if |game| == 0 then NULL_NAME
                       else if |game| == 1 then game[0]
                       else Join(" ", game[..|game| - 1]))
  {
    var ts := game + [a, b, last];
    assert forall t :: t in ts ==> '-' !in t;
    var s := Join("-", ts);
    SplitJoin(ts, '-');
    assert Split(s, '-') == ts;
    NameAndIconShape(s);
    var n := |ts|;
    var r := GameNameAndIconName(s);
    assert ts[n - 3..n - 1] == [a, b];
    assert Join("-", [a, b]) == a + "-" + b;
    assert r.1 == a + "-" + b;
    if n >= 5 {
      assert ts[..n - 4] == game[..|game| - 1];
      assert r.0 == Join(" ", game[..|game| - 1]);
    } else if n == 4 {
      assert r.0 == game[0];
    } else {
      assert r.0 == NULL_NAME;
    }
  }

  /** The example file name of the source, written as its `-` tokens: the
      token `Shikigami` just before the label is dropped from the game name. */
  lemma CastleOfShikigamiExample(fileName: string)
    requires fileName == Join("-", ["Castle", "of", "Shikigami", "2", "icon001", "%5B010061E018D3C000%5D.jpg"])
    ensures GameNameAndIconName(fileName) == ("Castle of", "2-icon001")
  {
    var game := ["Castle", "of", "Shikigami"];
    var tail := ["2", "icon001", "%5B010061E018D3C000%5D.jpg"];
    NameAndIconOfTokens(game, "2", "icon001", "%5B010061E018D3C000%5D.jpg");
    assert game + tail == ["Castle", "of", "Shikigami", "2", "icon001", "%5B010061E018D3C000%5D.jpg"];
    var r := GameNameAndIconName(fileName);
    assert r.1 == "2" + "-" + "icon001" == "2-icon001";
    assert game[..2] == ["Castle", "of"];
    assert r.0 == Join(" ", ["Castle", "of"]) == "Castle of";
  }

  /** Three tokens leave no game tokens: the name is the sentinel and the
      label is the first two tokens. */
  lemma ThreeTokenExample(fileName: string)
    requires fileName == Join("-", ["Tetris", "icon", "%5BABCDEF1234567890%5D.png"])
    ensures GameNameAndIconName(fileName) == (NULL_NAME, "Tetris-icon")
  {
    var tail := ["Tetris", "icon", "%5BABCDEF1234567890%5D.png"];
    NameAndIconOfTokens([], "Tetris", "icon", "%5BABCDEF1234567890%5D.png");
    assert [] + tail == tail;
    assert "Tetris" + "-" + "icon" == "Tetris-icon";
  }

  /* ---------------------------------------------------------------- title id */

  /** Occurrences inside `s[lo..hi]` are the occurrences in the slice. */
  lemma OccursInSlice(s: string, pat: string, lo: nat, hi: nat, k: int)
    requires lo <= k && k + |pat| <= hi <= |s|
    ensures OccursAt(s, pat, k) <==> OccursAt(s[lo..hi], pat, k - lo)
  {
    var inSlice, inWhole := s[lo..hi][k - lo..k - lo + |pat|], s[k..k + |pat|];
    forall x | 0 <= x < |pat| ensures inSlice[x] == inWhole[x] {
      assert s[lo..hi][k - lo + x] == s[k + x];
    }
    assert inSlice == inWhole;
  }

  /** A marker whose first character does not recur in it cannot start
      strictly before a position holding that character and reach over it. */
  lemma NoStraddle(s: string, pat: string, k: int, m: int)
    requires pat != [] && pat[0] !in pat[1..]
    requires 0 <= k < m < k + |pat| && m < |s| && s[m] == pat[0]
    ensures !OccursAt(s, pat, k)
  {
    if k + |pat| <= |s| {
      assert s[k..k + |pat|][m - k] == s[m];
      assert pat[1..][m - k - 1] == pat[m - k];
    }
  }

  /** A string without the first character of `pat` does not contain it. */
  lemma NoMarkerWithoutItsFirstChar(s: string, pat: string)
    requires pat != [] && pat[0] !in s
    ensures !Contains(s, pat)
  {
    forall k | 0 <= k && k + |pat| <= |s| ensures !OccursAt(s, pat, k) {
      assert s[k..k + |pat|][0] == s[k];
    }
  }

  /** The two markers cannot overlap: a closing marker at or after an
      opening one lies past its three characters. */
  lemma MarkersApart(s: string, i: int, j: int)
    requires OccursAt(s, START_MARKER, i) && OccursAt(s, END_MARKER, j) && i <= j
    ensures i + |START_MARKER| <= j
  {
    assert s[i + 1] == s[i..i + 3][1] == '5';
    assert s[i + 2] == s[i..i + 3][2] == 'B';
    assert s[j] == s[j..j + 3][0] == '%';
    assert s[j + 2] == s[j..j + 3][2] == 'D';
  }

  /** `get_title_id`: the text strictly between the first `%5B` and the first
      `%5D` after it, not decoded; absent when either marker is missing. */
  function GetTitleId(fullIconName: string): Option<string>
  {
    var startIdx := Find(fullIconName, START_MARKER, 0);
    var endIdx := Find(fullIconName, END_MARKER, startIdx);
    if startIdx != -1 && endIdx != -1 && endIdx > startIdx then
      MarkersApart(fullIconName, startIdx, endIdx);
      Some(fullIconName[startIdx + |START_MARKER|..endIdx])
    else
      None
  }

  /** A title id is found exactly when some `%5B` is followed by some `%5D`;
      otherwise the result is absent, never an error. */
  lemma TitleIdFoundIff(s: string)
    ensures GetTitleId(s).Some? <==>
            exists i, j :: i < j && OccursAt(s, START_MARKER, i) && OccursAt(s, END_MARKER, j)
  {
    var startIdx := Find(s, START_MARKER, 0);
    var endIdx := Find(s, END_MARKER, startIdx);
    if exists i, j :: i < j && OccursAt(s, START_MARKER, i) && OccursAt(s, END_MARKER, j) {
      var i, j :| i < j && OccursAt(s, START_MARKER, i) && OccursAt(s, END_MARKER, j);
      assert startIdx != -1 && startIdx <= i;
      assert endIdx != -1;
      MarkersApart(s, startIdx, endIdx);
    }
  }

  /** A found title id decomposes the name as `p + "%5B" + t + "%5D" + q` with
      no `%5B` in `p` and no `%5D` in `t`. */
  lemma TitleIdSplitsName(s: string)
    ensures GetTitleId(s).Some? ==>
              var t := GetTitleId(s).value;
              exists i :: 0 <= i <= |s| && OccursAt(s, START_MARKER, i)
                && !Contains(s[..i], START_MARKER)
                && OccursAt(s, END_MARKER, i + 3 + |t|)
                && s[i + 3..i + 3 + |t|] == t
                && !Contains(t, END_MARKER)
  {
    var i := Find(s, START_MARKER, 0);
    var j := Find(s, END_MARKER, i);
    if i != -1 && j != -1 && j > i {
      MarkersApart(s, i, j);
      var t := s[i + 3..j];
      assert GetTitleId(s) == Some(t);
      forall k | 0 <= k && k + 3 <= i ensures !OccursAt(s[..i], START_MARKER, k) {
        OccursInSlice(s, START_MARKER, 0, i, k);
      }
      forall k | 0 <= k && k + 3 <= |t| ensures !OccursAt(t, END_MARKER, k) {
        OccursInSlice(s, END_MARKER, i + 3, j, i + 3 + k);
      }
      assert !Contains(t, END_MARKER);
      assert !Contains(s[..i], START_MARKER);
    }
  }

  /** Conversely, a name `p + "%5B" + t + "%5D" + q` with no `%5B` in `p` and
      no `%5D` in `t` has title id `t`, whatever `q` holds. */
  lemma TitleIdOfComposedName(p: string, t: string, q: string)
    requires !Contains(p, START_MARKER) && !Contains(t, END_MARKER)
    ensures GetTitleId(p + START_MARKER + t + END_MARKER + q) == Some(t)
  {
    var s := p + START_MARKER + t + END_MARKER + q;
    var i, j := |p|, |p| + 3 + |t|;
    assert s[..i] == p;
    assert s[i..i + 3] == START_MARKER;
    assert s[i + 3..j] == t;
    assert s[j..j + 3] == END_MARKER;
    assert OccursAt(s, START_MARKER, i) && OccursAt(s, END_MARKER, j);
    forall k | 0 <= k < i ensures !OccursAt(s, START_MARKER, k) {
      if k + 3 <= i {
        OccursInSlice(s, START_MARKER, 0, i, k);
      } else {
        NoStraddle(s, START_MARKER, k, i);
      }
    }
    var startIdx := Find(s, START_MARKER, 0);
    assert startIdx == i;
    forall k | i <= k < j ensures !OccursAt(s, END_MARKER, k) {
      if k < i + 3 {
        assert s[k] == s[i..i + 3][k - i];
        assert s[k..k + 3][0] == s[k];
        assert s[k..k + 3][2] == s[k + 2];
      } else if k + 3 <= j {
        OccursInSlice(s, END_MARKER, i + 3, j, k);
      } else {
        NoStraddle(s, END_MARKER, k, j);
      }
    }
    var endIdx := Find(s, END_MARKER, startIdx);
    assert endIdx == j;
  }

  /** The title id of a well-formed name from the catalog's sources. */
  lemma TitleIdExample(fileName: string)
    requires fileName == "foo-" + "%5B" + "0100ABCDEF123456" + "%5D" + ".jpg"
    ensures GetTitleId(fileName) == Some("0100ABCDEF123456")
  {
    var p, t, q := "foo-", "0100ABCDEF123456", ".jpg";
    NoMarkerWithoutItsFirstChar(p, START_MARKER);
    NoMarkerWithoutItsFirstChar(t, END_MARKER);
    TitleIdOfComposedName(p, t, q);
  }

  /** A name without any `%5B` has no title id. */
  lemma NoBracketsExample()
    ensures GetTitleId("no-brackets-here.jpg") == None
  {
    var s := "no-brackets-here.jpg";
    NoMarkerWithoutItsFirstChar(s, START_MARKER);
    TitleIdFoundIff(s);
  }
}

=== FILE: merge.dfy ===
/** The merge pass of `merge_with_existing_json`: every new game entry, in
    order, is folded into the existing catalog by game NAME. The first
    existing entry with that name takes the new normal icon and the new icons
    after its own; a new entry whose name is not yet present is appended and
    becomes a target for the entries that follow it. Reading the existing
    file is an input here: `None` stands for a file that does not exist. */
module CatalogMerge {
  import opened Seqs
  import opened CatalogData
  import opened Aggregation

  /** The catalog the merge starts from: an absent file is an empty catalog. */
  function LoadedGames(existing: Option<Catalog>): (r: seq<GameEntry>)
    ensures existing.None? ==> r == []
    ensures existing.Some? ==> r == existing.value.games
  {
    match existing
    case None => []
    case Some(c) => c.games
  }

  /* ------------------------------------------------------- specification */

  /** One step of the loop. */
  function MergeEntry(games: seq<GameEntry>, e: GameEntry): seq<GameEntry>
  {
    match FindByName(games, e.name)
    case Some(j) =>
      games[j := games[j].(normalIcon := e.normalIcon, icons := games[j].icons + e.icons)]
    case None =>
      games + [e]
  }

  /** The games after folding `news`, in order, into `games`. */
  function MergeInto(games: seq<GameEntry>, news: seq<GameEntry>): seq<GameEntry>
  {
    if news == [] then games
    else MergeEntry(MergeInto(games, news[..|news| - 1]), news[|news| - 1])
  }

  lemma MergeIntoAppend(games: seq<GameEntry>, news: seq<GameEntry>, e: GameEntry)
    ensures MergeInto(games, news + [e]) == MergeEntry(MergeInto(games, news), e)
  {
    assert (news + [e])[..|news|] == news;
  }

  function Names(games: seq<GameEntry>): (r: seq<string>)
    ensures |r| == |games|
    ensures forall k :: 0 <= k < |games| ==> r[k] == games[k].name
  {
    seq(|games|, k requires 0 <= k < |games| => games[k].name)
  }

  /** The icons of the entries named `name`, one entry after the other. */
  function IconsNamed(news: seq<GameEntry>, name: string): seq<Icon>
  {
    if news == [] then []
    else
      var last := news[|news| - 1];
      IconsNamed(news[..|news| - 1], name) + (if last.name == name then last.icons else [])
  }

  /** The normal icon of the last entry named `name`, or `dflt` when there is
      none. */
  function LastNormal(news: seq<GameEntry>, name: string, dflt: string): string
  {
    if news == [] then dflt
    else
      var last := news[|news| - 1];
      if last.name == name then last.normalIcon else LastNormal(news[..|news| - 1], name, dflt)
  }

  lemma {:induction false} IconsNamedAbsent(news: seq<GameEntry>, name: string)
    requires name !in Names(news)
    ensures IconsNamed(news, name) == []
  {
    if news != [] {
      var n := |news| - 1;
      assert Names(news[..n]) == Names(news)[..n];
      IconsNamedAbsent(news[..n], name);
    }
  }

  /** Existing games keep their place, name and title id. */
  ghost predicate KeepsExisting(g: seq<GameEntry>, r: seq<GameEntry>)
  {
    && |g| <= |r|
    && forall i :: 0 <= i < |g| ==> r[i].name == g[i].name && r[i].titleId == g[i].titleId
  }

  /** An existing game preceded by one of the same name is never touched. */
  ghost predicate DuplicatesUntouched(g: seq<GameEntry>, r: seq<GameEntry>)
    requires |g| <= |r|
  {
    forall i :: 0 <= i < |g| && FindByName(g, g[i].name) != Some(i) ==> r[i] == g[i]
  }

  /** The first existing game of each name gets the icons of every new entry
      of that name after its own, and the normal icon of the last of them. */
  ghost predicate ExistingUpdated(g: seq<GameEntry>, news: seq<GameEntry>, r: seq<GameEntry>)
    requires |g| <= |r|
  {
    forall i :: 0 <= i < |g| && FindByName(g, g[i].name) == Some(i) ==>
      && r[i].icons == g[i].icons + IconsNamed(news, g[i].name)
      && r[i].normalIcon == LastNormal(news, g[i].name, g[i].normalIcon)
  }

  /** The appended games have names that no other game has. */
  ghost predicate TailNamesNew(g: seq<GameEntry>, r: seq<GameEntry>)
  {
    forall i, k :: 0 <= k < |r| && |g| <= i < |r| && k != i ==> r[k].name != r[i].name
  }

  /** Every new name ends up in the catalog, and every appended game is named
      by a new entry. */
  ghost predicate NamesCovered(g: seq<GameEntry>, news: seq<GameEntry>, r: seq<GameEntry>)
  {
    && (forall k :: 0 <= k < |news| ==> news[k].name in Names(r))
    && (forall i :: |g| <= i < |r| ==> r[i].name in Names(news))
  }

  /** Appended games follow the first new entries of their names. */
  ghost predicate TailOrdered(g: seq<GameEntry>, news: seq<GameEntry>, r: seq<GameEntry>)
    requires NamesCovered(g, news, r)
  {
    var names := Names(news);
    forall i, k :: |g| <= i < k < |r| ==> FirstIndex(names, r[i].name) < FirstIndex(names, r[k].name)
  }

  /** An appended game is the first new entry of its name, with the normal
      icon of the last one and the icons of all of them. */
  ghost predicate TailBuilt(g: seq<GameEntry>, news: seq<GameEntry>, r: seq<GameEntry>)
    requires NamesCovered(g, news, r)
  {
    var names := Names(news);
    forall i :: |g| <= i < |r| ==>
      var first := news[FirstIndex(names, r[i].name)];
      r[i] == GameEntry(first.titleId, first.name,
                        LastNormal(news, first.name, first.normalIcon), IconsNamed(news, first.name))
  }

  /** What merging `news` into `g` by name means. */
  ghost predicate MergedFrom(g: seq<GameEntry>, news: seq<GameEntry>, r: seq<GameEntry>)
  {
    && KeepsExisting(g, r)
    && DuplicatesUntouched(g, r)
    && ExistingUpdated(g, news, r)
    && TailNamesNew(g, r)
    && NamesCovered(g, news, r)
    && TailOrdered(g, news, r)
    && TailBuilt(g, news, r)
  }

  /* ------------------------------------------------------------- lemmas */

  /** A match among the existing games is the first existing game of that
      name. */
  lemma MatchIsFirstExisting(g: seq<GameEntry>, r: seq<GameEntry>, name: string, j: nat)
    requires KeepsExisting(g, r) && FindByName(r, name) == Some(j) && j < |g|
    ensures FindByName(g, name) == Some(j)
  {
    assert forall k :: 0 <= k < j ==> g[k].name == r[k].name;
  }

  /** The first existing game of a name is also the first game of that name
      after any number of steps. */
  lemma FirstExistingMatches(g: seq<GameEntry>, r: seq<GameEntry>, i: nat)
    requires KeepsExisting(g, r) && i < |g| && FindByName(g, g[i].name) == Some(i)
    ensures FindByName(r, g[i].name) == Some(i)
  {
    assert forall k :: 0 <= k < i ==> r[k].name == g[k].name;
  }

  lemma NamesAppend(news: seq<GameEntry>, e: GameEntry)
    ensures Names(news + [e]) == Names(news) + [e.name]
  {
  }

  lemma NewsAppend(news: seq<GameEntry>, e: GameEntry, name: string, dflt: string)
    ensures IconsNamed(news + [e], name) == IconsNamed(news, name) + (if e.name == name then e.icons else [])
    ensures LastNormal(news + [e], name, dflt) == if e.name == name then e.normalIcon else LastNormal(news, name, dflt)
  {
    assert (news + [e])[..|news|] == news;
  }

  lemma MergeEntryKeeps(g: seq<GameEntry>, r: seq<GameEntry>, e: GameEntry)
    requires KeepsExisting(g, r) && DuplicatesUntouched(g, r)
    ensures KeepsExisting(g, MergeEntry(r, e)) && DuplicatesUntouched(g, MergeEntry(r, e))
  {
    var r' := MergeEntry(r, e);
    match FindByName(r, e.name)
    case Some(j) =>
      if j < |g| {
        MatchIsFirstExisting(g, r, e.name, j);
      }
    case None =>
      assert r' == r + [e];
  }

  /** A step leaves an existing game of another name as it was. */
  lemma MergeEntryOtherName(g: seq<GameEntry>, news: seq<GameEntry>, r: seq<GameEntry>, e: GameEntry, i: nat)
    requires KeepsExisting(g, r) && i < |g| && g[i].name != e.name
    requires r[i].icons == g[i].icons + IconsNamed(news, g[i].name)
    requires r[i].normalIcon == LastNormal(news, g[i].name, g[i].normalIcon)
    ensures |g| <= |MergeEntry(r, e)|
    ensures MergeEntry(r, e)[i].icons == g[i].icons + IconsNamed(news + [e], g[i].name)
    ensures MergeEntry(r, e)[i].normalIcon == LastNormal(news + [e], g[i].name, g[i].normalIcon)
  {
    NewsAppend(news, e, g[i].name, g[i].normalIcon);
    assert MergeEntry(r, e)[i] == r[i];
  }

  /** A step whose name is that of the first existing game of the name
      updates that game. */
  lemma MergeEntryAtFirst(g: seq<GameEntry>, r: seq<GameEntry>, e: GameEntry, i: nat)
    requires KeepsExisting(g, r) && i < |g| && FindByName(g, g[i].name) == Some(i)
    requires g[i].name == e.name
    ensures |g| <= |MergeEntry(r, e)|
    ensures MergeEntry(r, e)[i] == r[i].(normalIcon := e.normalIcon, icons := r[i].icons + e.icons)
  {
    FirstExistingMatches(g, r, i);
  }

  /** The update of that game extends its icons and takes the new normal
      icon. */
  lemma MergeEntrySameName(g: seq<GameEntry>, news: seq<GameEntry>, r: seq<GameEntry>, e: GameEntry, i: nat)
    requires i < |g| <= |MergeEntry(r, e)| && i < |r| && g[i].name == e.name
    requires r[i].icons == g[i].icons + IconsNamed(news, g[i].name)
    requires MergeEntry(r, e)[i] == r[i].(normalIcon := e.normalIcon, icons := r[i].icons + e.icons)
    ensures MergeEntry(r, e)[i].icons == g[i].icons + IconsNamed(news + [e], g[i].name)
    ensures MergeEntry(r, e)[i].normalIcon == LastNormal(news + [e], g[i].name, g[i].normalIcon)
  {
    NewsAppend(news, e, g[i].name, g[i].normalIcon);
    var named := IconsNamed(news, g[i].name);
    assert g[i].icons + named + e.icons == g[i].icons + (named + e.icons);
  }

  lemma MergeEntryUpdates(g: seq<GameEntry>, news: seq<GameEntry>, r: seq<GameEntry>, e: GameEntry)
    requires KeepsExisting(g, r) && ExistingUpdated(g, news, r)
    ensures |g| <= |MergeEntry(r, e)|
    ensures ExistingUpdated(g, news + [e], MergeEntry(r, e))
  {
    var r', news' := MergeEntry(r, e), news + [e];
    assert |g| <= |r'|;
    forall i | 0 <= i < |g| && FindByName(g, g[i].name) == Some(i)
      ensures r'[i].icons == g[i].icons + IconsNamed(news', g[i].name)
      ensures r'[i].normalIcon == LastNormal(news', g[i].name, g[i].normalIcon)
    {
      if g[i].name != e.name {
        MergeEntryOtherName(g, news, r, e, i);
      } else {
        MergeEntryAtFirst(g, r, e, i);
        MergeEntrySameName(g, news, r, e, i);
      }
    }
  }

  /** The step that updates game `j`, for the appended games. */
  lemma TailStepUpdateNames(g: seq<GameEntry>, news: seq<GameEntry>, r: seq<GameEntry>, e: GameEntry, j: nat, r': seq<GameEntry>)
    requires TailNamesNew(g, r) && NamesCovered(g, news, r)
    requires j < |r| && r[j].name == e.name
    requires r' == r[j := r[j].(normalIcon := e.normalIcon, icons := r[j].icons + e.icons)]
    ensures Names(r') == Names(r)
    ensures TailNamesNew(g, r') && NamesCovered(g, news + [e], r')
  {
    NamesAppend(news, e);
    assert Names(r') == Names(r);
    assert e.name in Names(r) by { assert Names(r)[j] == e.name; }
  }

  lemma TailStepUpdateOrder(g: seq<GameEntry>, news: seq<GameEntry>, r: seq<GameEntry>, e: GameEntry, j: nat, r': seq<GameEntry>)
    requires NamesCovered(g, news, r) && TailOrdered(g, news, r)
    requires NamesCovered(g, news + [e], r')
    requires j < |r| && r[j].name == e.name
    requires r' == r[j := r[j].(normalIcon := e.normalIcon, icons := r[j].icons + e.icons)]
    ensures TailOrdered(g, news + [e], r')
  {
    var names, names' := Names(news), Names(news + [e]);
    NamesAppend(news, e);
    forall i | |g| <= i < |r|
      ensures FirstIndex(names', r'[i].name) == FirstIndex(names, r[i].name)
    {
      FirstIndexAppend(names, e.name, r[i].name);
    }
  }

  lemma TailStepUpdateBuilt(g: seq<GameEntry>, news: seq<GameEntry>, r: seq<GameEntry>, e: GameEntry, j: nat, r': seq<GameEntry>)
    requires |g| <= |r| && TailNamesNew(g, r) && NamesCovered(g, news, r) && TailBuilt(g, news, r)
    requires NamesCovered(g, news + [e], r')
    requires j < |r| && r[j].name == e.name
    requires r' == r[j := r[j].(normalIcon := e.normalIcon, icons := r[j].icons + e.icons)]
    ensures TailBuilt(g, news + [e], r')
  {
    var names, news' := Names(news), news + [e];
    var names' := Names(news');
    NamesAppend(news, e);
    forall i | |g| <= i < |r'|
      ensures var first := news'[FirstIndex(names', r'[i].name)];
        r'[i] == GameEntry(first.titleId, first.name,
                           LastNormal(news', first.name, first.normalIcon), IconsNamed(news', first.name))
    {
      var name := r[i].name;
      FirstIndexAppend(names, e.name, name);
      var f := FirstIndex(names, name);
      assert news'[f] == news[f];
      NewsAppend(news, e, name, news[f].normalIcon);
      if i == j {
        var named := IconsNamed(news, name);
        assert r[i].icons + e.icons == named + e.icons;
      } else {
        assert r'[i] == r[i];
      }
    }
  }

  /** The step that appends `e`, for the appended games. */
  lemma TailStepAppendNames(g: seq<GameEntry>, news: seq<GameEntry>, r: seq<GameEntry>, e: GameEntry)
    requires |g| <= |r| && TailNamesNew(g, r) && NamesCovered(g, news, r)
    requires e.name !in Names(r)
    ensures e.name !in Names(news)
    ensures TailNamesNew(g, r + [e]) && NamesCovered(g, news + [e], r + [e])
  {
    var r' := r + [e];
    NamesAppend(news, e);
    NamesAppend(r, e);
    forall k | 0 <= k < |r| ensures r[k].name != e.name {
      assert Names(r)[k] == r[k].name;
    }
  }

  lemma TailStepAppendOrder(g: seq<GameEntry>, news: seq<GameEntry>, r: seq<GameEntry>, e: GameEntry)
    requires |g| <= |r| && NamesCovered(g, news, r) && TailOrdered(g, news, r)
    requires e.name !in Names(news) && NamesCovered(g, news + [e], r + [e])
    ensures TailOrdered(g, news + [e], r + [e])
  {
    var names, names' := Names(news), Names(news + [e]);
    var r' := r + [e];
    NamesAppend(news, e);
    FirstIndexAppendNew(names, e.name);
    forall i | |g| <= i < |r|
      ensures FirstIndex(names', r'[i].name) == FirstIndex(names, r[i].name) < |news|
    {
      FirstIndexAppend(names, e.name, r[i].name);
    }
  }

  lemma TailStepAppendBuilt(g: seq<GameEntry>, news: seq<GameEntry>, r: seq<GameEntry>, e: GameEntry)
    requires |g| <= |r| && NamesCovered(g, news, r) && TailBuilt(g, news, r)
    requires e.name !in Names(news) && NamesCovered(g, news + [e], r + [e])
    requires TailNamesNew(g, r + [e])
    ensures TailBuilt(g, news + [e], r + [e])
  {
    var names, news', r' := Names(news), news + [e], r + [e];
    var names' := Names(news');
    NamesAppend(news, e);
    forall i | |g| <= i < |r'|
      ensures var first := news'[FirstIndex(names', r'[i].name)];
        r'[i] == GameEntry(first.titleId, first.name,
                           LastNormal(news', first.name, first.normalIcon), IconsNamed(news', first.name))
    {
      if i == |r| {
        FirstIndexAppendNew(names, e.name);
        NewsAppend(news, e, e.name, e.normalIcon);
        IconsNamedAbsent(news, e.name);
      } else {
        var name := r[i].name;
        assert name != e.name;
        FirstIndexAppend(names, e.name, name);
        var f := FirstIndex(names, name);
        assert news'[f] == news[f];
        NewsAppend(news, e, name, news[f].normalIcon);
      }
    }
  }

  /** One step keeps the characterisation. */
  lemma MergeEntryMerged(g: seq<GameEntry>, news: seq<GameEntry>, r: seq<GameEntry>, e: GameEntry,
                          news': seq<GameEntry>, r'': seq<GameEntry>)
    requires MergedFrom(g, news, r)
    requires news' == news + [e] && r'' == MergeEntry(r, e)
    ensures MergedFrom(g, news', r'')
  {
    MergeEntryKeeps(g, r, e);
    MergeEntryUpdates(g, news, r, e);
    match FindByName(r, e.name)
    case Some(j) =>
      var r' := r[j := r[j].(normalIcon := e.normalIcon, icons := r[j].icons + e.icons)];
      assert MergeEntry(r, e) == r';
      TailStepUpdateNames(g, news, r, e, j, r');
      TailStepUpdateOrder(g, news, r, e, j, r');
      TailStepUpdateBuilt(g, news, r, e, j, r');
    case None =>
      assert MergeEntry(r, e) == r + [e];
      assert e.name !in Names(r);
      TailStepAppendNames(g, news, r, e);
      TailStepAppendOrder(g, news, r, e);
      TailStepAppendBuilt(g, news, r, e);
  }

  /** Merging `news` into `g` by name means what MergedFrom says. */
  lemma {:induction false} MergeIntoMerged(g: seq<GameEntry>, news: seq<GameEntry>)
    ensures MergedFrom(g, news, MergeInto(g, news))
  {
    if news == [] {
      forall i | 0 <= i < |g| ensures g[i].icons == g[i].icons + IconsNamed(news, g[i].name) {
        assert g[i].icons + [] == g[i].icons;
      }
    } else {
      var prev, last := news[..|news| - 1], news[|news| - 1];
      MergeIntoMerged(g, prev);
      assert prev + [last] == news;
      MergeEntryMerged(g, prev, MergeInto(g, prev), last, news, MergeInto(g, news));
    }
  }

  /** Merging adds exactly the new icons to the total. */
  lemma {:induction false} MergeTotal(g: seq<GameEntry>, news: seq<GameEntry>)
    ensures TotalIcons(MergeInto(g, news)) == TotalIcons(g) + TotalIcons(news)
  {
    if news != [] {
      var n := |news| - 1;
      var r, e := MergeInto(g, news[..n]), news[n];
      MergeTotal(g, news[..n]);
      match FindByName(r, e.name)
      case Some(j) =>
        TotalIconsUpdate(r, j, r[j].(normalIcon := e.normalIcon, icons := r[j].icons + e.icons));
      case None =>
        TotalIconsAppend(r, e);
    }
  }

  /** Entries whose names are all present already add no game and change no
      name. */
  lemma {:induction false} MergeKnownNames(r: seq<GameEntry>, news: seq<GameEntry>)
    requires forall k :: 0 <= k < |news| ==> news[k].name in Names(r)
    ensures Names(MergeInto(r, news)) == Names(r)
  {
    if news != [] {
      var n := |news| - 1;
      var r', e := MergeInto(r, news[..n]), news[n];
      MergeKnownNames(r, news[..n]);
      assert e.name in Names(r');
      assert FindByName(r', e.name).Some? by {
        var k :| 0 <= k < |r'| && Names(r')[k] == e.name;
        assert r'[k].name == e.name;
      }
      assert Names(MergeEntry(r', e)) == Names(r');
    }
  }

  /** Merging the same batch twice adds no game the second time but appends
      every icon again: nothing is deduplicated. */
  lemma MergeTwice(g: seq<GameEntry>, news: seq<GameEntry>)
    ensures |MergeInto(MergeInto(g, news), news)| == |MergeInto(g, news)|
    ensures TotalIcons(MergeInto(MergeInto(g, news), news)) == TotalIcons(g) + 2 * TotalIcons(news)
  {
    var r1 := MergeInto(g, news);
    MergeIntoMerged(g, news);
    MergeKnownNames(r1, news);
    MergeTotal(g, news);
    MergeTotal(r1, news);
  }

  /** The first existing game of a name gets the icons of a batch merged
      twice twice over. */
  lemma MergeTwiceIcons(g: seq<GameEntry>, news: seq<GameEntry>, i: nat)
    requires i < |g| && FindByName(g, g[i].name) == Some(i)
    ensures i < |MergeInto(MergeInto(g, news), news)|
    ensures MergeInto(MergeInto(g, news), news)[i].icons
         == g[i].icons + IconsNamed(news, g[i].name) + IconsNamed(news, g[i].name)
  {
    var r1 := MergeInto(g, news);
    MergeIntoMerged(g, news);
    MergeIntoMerged(r1, news);
    FirstExistingMatches(g, r1, i);
  }

  /** A game the first merge appended gets its icons twice from a second
      merge of the same batch; merged into an empty catalog, that is every
      game. */
  lemma MergeTwiceAppended(g: seq<GameEntry>, news: seq<GameEntry>, i: nat)
    requires |g| <= i < |MergeInto(g, news)|
    ensures i < |MergeInto(MergeInto(g, news), news)|
    ensures MergeInto(g, news)[i].icons == IconsNamed(news, MergeInto(g, news)[i].name)
    ensures MergeInto(MergeInto(g, news), news)[i].icons
         == IconsNamed(news, MergeInto(g, news)[i].name) + IconsNamed(news, MergeInto(g, news)[i].name)
  {
    var r1 := MergeInto(g, news);
    MergeIntoMerged(g, news);
    MergeIntoMerged(r1, news);
    var names := Names(news);
    assert r1[i].name in names;
    assert news[FirstIndex(names, r1[i].name)].name == r1[i].name;
    assert FindByName(r1, r1[i].name) == Some(i);
  }

  /** Two images of one game name with different title ids stay two entries
      after aggregation and become one entry holding both icons once merged
      into an empty catalog. */
  lemma SameNameDifferentTitleIds(a: Image, b: Image)
    requires a.gameName == b.gameName && a.titleId != b.titleId
    ensures |Aggregate([a, b])| == 2
    ensures MergeInto([], Aggregate([a, b])) == [GameEntry(a.titleId, a.gameName, b.url, [IconOf(a), IconOf(b)])]
  {
    DifferentTitleIdsSeparate(a, b);
    var ea, eb := NewEntry(a), NewEntry(b);
    MergeIntoAppend([], [], ea);
    MergeIntoAppend([], [ea], eb);
    assert [] + [ea] == [ea] && [ea] + [eb] == [ea, eb];
    assert MergeInto([], [ea]) == [ea];
    assert FindByName([ea], eb.name) == Some(0);
    assert [IconOf(a)] + [IconOf(b)] == [IconOf(a), IconOf(b)];
  }

  /* ------------------------------------------------------------ the loop */

  /** `merge_with_existing_json` with the existing file's contents as an
      input: the new entries are folded into the loaded games one at a time,
      each matched by name with a linear search. */
  method MergeWithExisting(existing: Option<Catalog>, newIconsData: seq<GameEntry>) returns (merged: Catalog)
    ensures merged.games == MergeInto(LoadedGames(existing), newIconsData)
    ensures MergedFrom(LoadedGames(existing), newIconsData, merged.games)
    ensures TotalIcons(merged.games) == TotalIcons(LoadedGames(existing)) + TotalIcons(newIconsData)
  {
    var existingData := if existing.None? then Catalog([]) else existing.value;
    var games := existingData.games;
    ghost var g := LoadedGames(existing);
    var n := 0;
    while n < |newIconsData|
      invariant 0 <= n <= |newIconsData|
      invariant games == MergeInto(g, newIconsData[..n])
    {
      var newGameEntry := newIconsData[n];
      ghost var before := games;
      var existingGameEntry := SearchByName(games, newGameEntry.name);
      match existingGameEntry {
        case Some(j) =>
          games := games[j := games[j].(normalIcon := newGameEntry.normalIcon,
                                        icons := games[j].icons + newGameEntry.icons)];
        case None =>
          games := games + [newGameEntry];
      }
      assert games == MergeEntry(before, newGameEntry);
      MergeIntoAppend(g, newIconsData[..n], newGameEntry);
      assert newIconsData[..n + 1] == newIconsData[..n] + [newGameEntry];
      n := n + 1;
    }
    assert newIconsData[..n] == newIconsData;
    merged := Catalog(games);
    MergeIntoMerged(g, newIconsData);
    MergeTotal(g, newIconsData);
  }
}

=== FILE: seqs.dfy ===
/** Generic sequence helpers: an optional value, Python's index and slice
    semantics, and the first and last positions of an element. */
module Seqs {

  /** Python's `None` or a value. */
  datatype Option<+T> = None | Some(value: T)

  /** The position a Python slice bound `i` denotes in a sequence of length
      `n`: negative bounds count from the end, and the result is clipped to
      `0 .. n`. */
  function PyIndex(n: nat, i: int): (r: nat)
    ensures r <= n
    ensures 0 <= i <= n ==> r == i
    ensures -(n as int) <= i < 0 ==> r as int == n as int + i
    ensures i < -(n as int) ==> r == 0
    ensures i > n ==> r == n
  {
    if i < 0 then (if n + i < 0 then 0 else n + i)
    else if i > n then n
    else i
  }

  /** Python's `s[i:j]`: empty when the normalised bounds cross. */
  function PySlice<T>(s: seq<T>, i: int, j: int): (r: seq<T>)
    ensures |r| <= |s|
  {
    var lo, hi := PyIndex(|s|, i), PyIndex(|s|, j);
    if lo < hi then s[lo..hi] else []
  }

  /** The position of the first occurrence of `x` in `s`. */
  function FirstIndex<T(==)>(s: seq<T>, x: T): (r: nat)
    requires x in s
    ensures r < |s| && s[r] == x
    ensures forall k :: 0 <= k < r ==> s[k] != x
  {
    if s[0] == x then 0
    else 1 + FirstIndex(s[1..], x)
  }

  /** The position of the last occurrence of `x` in `s`. */
  function LastIndex<T(==)>(s: seq<T>, x: T): (r: nat)
    requires x in s
    ensures r < |s| && s[r] == x
    ensures forall k :: r < k < |s| ==> s[k] != x
  {
    var n := |s| - 1;
    if s[n] == x then n
    else
      assert x in s[..n] by {
        var k :| 0 <= k < |s| && s[k] == x;
        assert k < n && s[..n][k] == x;
      }
      LastIndex(s[..n], x)
  }

  /** Appending an element does not move the first occurrence of an element
      that was already present. */
  lemma FirstIndexAppend<T>(s: seq<T>, y: T, x: T)
    requires x in s
    ensures x in s + [y] && FirstIndex(s + [y], x) == FirstIndex(s, x)
  {
    assert (s + [y])[..|s|] == s;
  }

  /** An element that was absent first occurs where it is appended. */
  lemma FirstIndexAppendNew<T>(s: seq<T>, y: T)
    requires y !in s
    ensures y in s + [y] && FirstIndex(s + [y], y) == |s|
  {
    assert (s + [y])[..|s|] == s;
  }

  /** Appending an element makes it the last occurrence of itself and leaves
      the last occurrence of every other element where it was. */
  lemma LastIndexAppend<T>(s: seq<T>, y: T, x: T)
    requires x in s + [y]
    ensures x != y ==> x in s && LastIndex(s + [y], x) == LastIndex(s, x)
    ensures x == y ==> LastIndex(s + [y], x) == |s|
  {
    assert (s + [y])[..|s|] == s;
  }
}

=== FILE: text.dfy ===
/** The Python string operations the parser is built from: `str.split` on a
    single character, `str.join`, `str.find`, `str.lower`, `str.endswith` and
    `os.path.basename`. */
module Text {
  import opened Seqs

  /* ---------------------------------------------------------------- split/join */

  /** Python's `s.split(sep)` for a one-character separator: the maximal
      separator-free pieces between separators, empty pieces included. */
  function Split(s: string, sep: char): (r: seq<string>)
    ensures |r| >= 1
    ensures forall t :: t in r ==> sep !in t
  {
    if s == [] then [[]]
    else
      var rest := Split(s[1..], sep);
      if s[0] == sep then [[]] + rest
      else [[s[0]] + rest[0]] + rest[1..]
  }

  /** There is one more piece than there are separators. */
  lemma {:induction false} SplitCount(s: string, sep: char)
    ensures |Split(s, sep)| == multiset(s)[sep] + 1
  {
    if s != [] {
      SplitCount(s[1..], sep);
      assert s == [s[0]] + s[1..];
    }
  }

  /** Python's `sep.join(parts)`. */
  function Join(sep: string, parts: seq<string>): string
  {
    if |parts| == 0 then []
    else if |parts| == 1 then parts[0]
    else parts[0] + sep + Join(sep, parts[1..])
  }

  lemma JoinHead(sep: string, c: char, t: string, ts: seq<string>)
    ensures Join(sep, [[c] + t] + ts) == [c] + Join(sep, [t] + ts)
  {
    assert ([[c] + t] + ts)[1..] == ts == ([t] + ts)[1..];
  }

  /** Joining the pieces of a split with the separator gives back the string. */
  lemma {:induction false} JoinSplit(s: string, sep: char)
    ensures Join([sep], Split(s, sep)) == s
  {
    if s != [] {
      var rest := Split(s[1..], sep);
      JoinSplit(s[1..], sep);
      if s[0] == sep {
        assert ([[]] + rest)[1..] == rest;
      } else {
        assert rest == [rest[0]] + rest[1..];
        JoinHead([sep], s[0], rest[0], rest[1..]);
      }
    }
  }

  /** A string without separators splits into itself. */
  lemma {:induction false} SplitNoSeparator(a: string, sep: char)
    requires sep !in a
    ensures Split(a, sep) == [a]
  {
    if a != [] {
      SplitNoSeparator(a[1..], sep);
      assert a == [a[0]] + a[1..];
    }
  }

  /** A separator-free prefix ended by a separator becomes the first piece. */
  lemma {:induction false} SplitAfter(a: string, sep: char, b: string)
    requires sep !in a
    ensures Split(a + [sep] + b, sep) == [a] + Split(b, sep)
  {
    var s := a + [sep] + b;
    if a == [] {
      assert s[1..] == b;
    } else {
      SplitAfter(a[1..], sep, b);
      assert s[1..] == a[1..] + [sep] + b;
      assert a == [a[0]] + a[1..];
    }
  }

  /** Splitting a join of separator-free pieces gives back the pieces. */
  lemma {:induction false} SplitJoin(ts: seq<string>, sep: char)
    requires |ts| >= 1
    requires forall t :: t in ts ==> sep !in t
    ensures Split(Join([sep], ts), sep) == ts
  {
    if |ts| == 1 {
      SplitNoSeparator(ts[0], sep);
    } else {
      SplitJoin(ts[1..], sep);
      SplitAfter(ts[0], sep, Join([sep], ts[1..]));
      assert ts == [ts[0]] + ts[1..];
    }
  }

  /* ------------------------------------------------------ lower/endswith */

  /** `str.lower()` on one character; only ASCII letters are folded. */
  function LowerChar(c: char): (r: char)
    ensures 'A' <= c <= 'Z' ==> 'a' <= r <= 'z' && r as int == c as int + 32
    ensures !('A' <= c <= 'Z') ==> r == c
    ensures !('A' <= r <= 'Z')
  {
    if 'A' <= c <= 'Z' then (c as int + 32) as char else c
  }

  function Lower(s: string): (r: string)
    ensures |r| == |s|
    ensures forall i :: 0 <= i < |s| ==> r[i] == LowerChar(s[i])
    ensures forall i :: 0 <= i < |r| ==> !('A' <= r[i] <= 'Z')
  {
    seq(|s|, i requires 0 <= i < |s| => LowerChar(s[i]))
  }

  /** Python's `s.endswith(suffix)`. */
  predicate EndsWith(s: string, suffix: string)
  {
    |suffix| <= |s| && s[|s| - |suffix|..] == suffix
  }

  /* ---------------------------------------------------------------- find */

  /** `pat` occurs in `s` starting at position `i`. */
  predicate OccursAt(s: string, pat: string, i: int)
  {
    0 <= i && i + |pat| <= |s| && s[i..i + |pat|] == pat
  }

  predicate Contains(s: string, pat: string)
  {
    exists i :: 0 <= i <= |s| && OccursAt(s, pat, i)
  }

  /** The lowest position at or after `i` where `pat` occurs, or -1. */
  function FindFrom(s: string, pat: string, i: nat): (r: int)
    ensures r == -1 || (i <= r && OccursAt(s, pat, r))
    ensures r == -1 ==> forall j :: i <= j ==> !OccursAt(s, pat, j)
    ensures r != -1 ==> forall j :: i <= j < r ==> !OccursAt(s, pat, j)
    decreases |s| - i
  {
    if i + |pat| > |s| then -1
    else if s[i..i + |pat|] == pat then i
    else FindFrom(s, pat, i + 1)
  }

  /** Python's `s.find(pat, start)`: a negative start counts from the end and
      is clipped at 0; a start beyond the end finds nothing. */
  function Find(s: string, pat: string, start: int): (r: int)
    ensures r == -1 || (FindStart(s, start) <= r && OccursAt(s, pat, r))
    ensures r == -1 ==> forall j :: FindStart(s, start) <= j ==> !OccursAt(s, pat, j)
    ensures r != -1 ==> forall j :: FindStart(s, start) <= j < r ==> !OccursAt(s, pat, j)
  {
    FindFrom(s, pat, FindStart(s, start))
  }

  /** Where `s.find` starts looking: a negative start counts from the end and
      is clipped at 0; a non-negative one is kept, even past the end. */
  function FindStart(s: string, start: int): (lo: nat)
    ensures start >= 0 ==> lo == start
    ensures start < 0 ==> lo <= |s| && (lo == 0 || lo == |s| + start)
    ensures start < 0 && |s| + start >= 0 ==> lo == |s| + start
  {
    if start >= 0 then start else if |s| + start < 0 then 0 else |s| + start
  }

  /* ------------------------------------------------------------ basename */

  /** `os.path.basename(path)`: the text after the last `/`. */
  function Basename(path: string): (r: string)
    ensures '/' !in r
    ensures |r| <= |path| && path[|path| - |r|..] == r
    ensures |r| < |path| ==> path[|path| - |r| - 1] == '/'
  {
    if path == [] then []
    else
      var n := |path| - 1;
      if path[n] == '/' then []
      else
        var r := Basename(path[..n]) + [path[n]];
        assert path[|path| - |r|..] == path[..n][n - (|r| - 1)..] + [path[n]];
        r
  }

  /** The basename of a path ending in `/name` is `name`. */
  lemma {:induction false} BasenameAfterSlash(dir: string, name: string)
    requires '/' !in name
    ensures Basename(dir + "/" + name) == name
  {
    var path := dir + "/" + name;
    if name == [] {
      assert path[|path| - 1] == '/';
    } else {
      var n := |name| - 1;
      assert path[..|path| - 1] == dir + "/" + name[..n];
      BasenameAfterSlash(dir, name[..n]);
      assert name == name[..n] + [name[n]];
    }
  }
}
